=== FILE: README.md ===
# Ring-buffer object pool

A Dafny model of `Pool<T>` from pool.ts, together with its two subclasses,
`ArrayPool` and `AttachablePool`.

A pool recycles objects through a circular buffer with two cursors:
- `fromCache` hands out the slot at the removal cursor. When the two cursors are equal, it calls the factory instead.
- `toCache` stores an item at the insert cursor. When the advanced insert cursor meets the removal cursor, it doubles the buffer.

The project has three modules:

- `PoolModel` (pool_model.dfy) holds the three fields of a pool as a value, `State`.
  - A slot that `new Array(n)` leaves empty is `None`.
  - `FromCache`, `ToCache`, runs of them (`PopN`, `PushAll`) and `Seed` are functions on that value.
  - `Occupied` lists the stored slots, read from the removal cursor and wrapping at the end.
  - `Items` is the logical queue those slots hold.
  - `Valid` is the representation invariant: both cursors are in range and no stored slot is a hole.
- `PoolLemmas` (pool_lemmas.dfy) proves what these functions do to the count, the capacity and the logical queue.
- `Pools` (pools.dfy) holds the classes.
  - `Pool` keeps an `array` buffer and the two cursors as fields.
  - Its methods are proved to change those fields exactly as the `PoolModel` functions say. They copy the buffer with a loop on growth, as the source does.
  - `ArrayPool` and `AttachablePool` reuse a `Pool` by delegation.
  - `AttachablePool` records the calls of `attach` and `detach` in a ghost event log.

Growth copies the old slots to the same positions (pool.ts:45-47); it does not rotate them to start at the removal cursor. Two consequences follow:
- Growth keeps every stored item: the multiset of stored items is preserved.
- Growth keeps the queue order only when the removal cursor was 0. In general the queue after growth is the old queue plus the new item, rotated (`ToCacheGrowth`).

`GrowthScenario` steps through the smallest case where this shows. After a recycle, two releases grow a capacity-2 pool, and the next acquire returns the later release first. The ring buffer is FIFO while it does not grow (`ReleasesThenAcquiresInOrder`).

## Model

| member | source | states |
|---|---|---|
| PoolModel.Count | pool.ts:26-43 | the number of stored items, counted from the removal cursor to the insert cursor, is below the capacity in every state whose cursors are in range; that a full buffer never persists is `ToCacheEffect`'s growth condition |
| PoolModel.NextIsMod | pool.ts:32 | advancing a cursor past the last slot wraps it to 0, which is `(i + 1) % capacity` |
| PoolModel.FromCache | pool.ts:25-35 | `fromCache` keeps the buffer and the insert cursor, and leaves both cursors in range |
| PoolModel.ToCache | pool.ts:37-52 | `toCache` leaves both cursors in range; the capacity doubles exactly when the advanced insert cursor meets the removal cursor, and is otherwise unchanged |
| PoolModel.PushAll | pool.ts:37-52 | `toCache` applied to each item of a run in turn leaves both cursors in range |
| PoolModel.PopN | pool.ts:25-35 | `fromCache` called `n` times leaves the buffer unchanged and both cursors in range, and yields one result per call |
| PoolModel.Seed | pool.ts:75-84 | `seed(count)` on the fields (the acquiring loop, then the releasing loop) leaves both cursors in range |
| PoolModel.Fit | pool.ts:43-50 | the capacity reached by doubling is above the number of items it must hold, is at least the old capacity, and is no more than twice what is needed |
| PoolLemmas.CountIsCursorDistance | pool.ts:26-40 | the stored count is `(insertIndex - removalIndex) mod capacity`; it is 0 exactly when the cursors are equal |
| PoolLemmas.FromCacheEffect | pool.ts:25-35 | on an empty pool nothing changes and the factory serves the call; otherwise the oldest item is returned and leaves the queue, the count drops by one, the removal cursor advances modulo the capacity, and the buffer and the insert cursor are unchanged |
| PoolLemmas.ToCacheInPlace | pool.ts:39-40 | without growth only the slot at the insert cursor changes, to the item; that cursor advances modulo the capacity; the capacity and the removal cursor are unchanged; the item joins the back of the queue |
| PoolLemmas.ToCacheGrowth | pool.ts:43-50 | with growth the capacity doubles, the old slots keep their positions, and the cursors become 0 and the old capacity; the queue becomes the old queue plus the item rotated by the old removal cursor, and it is in release order when that cursor was 0 |
| PoolLemmas.ToCacheEffect | pool.ts:37-52 | `toCache` stores one more item and loses none (as a multiset); it grows exactly when the pool would otherwise be full |
| PoolLemmas.ToCacheCount | pool.ts:37-52 | the same count and growth condition for any shaped state, holes or not |
| PoolLemmas.FitStep | pool.ts:43-50 | one more stored item changes the fitting capacity only when it fills it, and then doubles it |
| PoolLemmas.FitIsDoubling | pool.ts:44 | the fitting capacity is the initial one doubled some number of times |
| PoolLemmas.PushAllEffect | pool.ts:37-52 | releasing a run of items raises the count by its length and keeps every item stored or released |
| PoolLemmas.PushAllCount | pool.ts:37-52 | the count after a run of releases, for any shaped state |
| PoolLemmas.PushAllCapacity | pool.ts:43-50 | the capacity after a run of releases is the least doubling of the old one that holds every stored item with a slot to spare; capacity never decreases |
| PoolLemmas.PushAllLast | pool.ts:43-50 | the last release of a run doubles the capacity exactly when it would fill the buffer |
| PoolLemmas.PushAllInOrder | pool.ts:39-40 | while no growth happens, released items join the queue in release order and the capacity is unchanged |
| PoolLemmas.PopNEffect | pool.ts:25-35 | `n` acquires in a row return the `min(n, count)` oldest items in order and remove them; the rest fall back on the factory |
| PoolLemmas.PopNRecycled | pool.ts:31-32 | the first `n` acquires, while `n` does not exceed the stored count, return the `n` oldest items in order and leave the rest queued |
| PoolLemmas.PopNAll | pool.ts:25-35 | acquiring exactly as many items as are stored returns all of them in order and empties the pool |
| PoolLemmas.PopNCold | pool.ts:26-29 | more acquires than stored items return every stored item and then factory results, and leave the pool empty |
| PoolLemmas.ReleasesThenAcquiresInOrder | pool.ts:31-40 | without growth, releasing `xs` and then acquiring every stored item returns the earlier items followed by `xs`, in order (FIFO) |
| PoolLemmas.SeedAcquired | pool.ts:76-79 | the acquiring loop of `seed` takes the `min(count, stored)` oldest items and then factory results, and leaves the capacity unchanged |
| PoolLemmas.SeedEffect | pool.ts:75-84 | after `seed(count)` the count is `max(old count, count)`; nothing stored is lost, and the items added are the factory's |
| PoolLemmas.SeedCapacity | pool.ts:75-84 | the capacity after `seed(count)` is the least doubling of the old one that holds `max(old count, count)` items |
| PoolLemmas.SeedRotates | pool.ts:75-84 | seeding no more than is stored moves the `count` oldest items to the back of the queue and keeps the capacity |
| Pools.Pool.constructor | pool.ts:6-16 | a new pool has `initialCapacity` empty slots, both cursors at 0 and an empty queue |
| Pools.Pool.Capacity | pool.ts:21-23 | `capacity()` is the length of the buffer, which exceeds the number of stored items |
| Pools.Pool.FromCache | pool.ts:25-35 | the fields change as `PoolModel.FromCache` says; the result is the oldest stored item, or the factory's result (counted) when the pool is empty; the buffer is not written |
| Pools.Pool.ToCache | pool.ts:37-52 | the fields, including the grown buffer copied by the loop, become `PoolModel.ToCache` of the old ones, and the invariant is kept |
| Pools.ArrayPool.constructor | pool.ts:60-62 | an empty pool of the given capacity whose factory makes an empty array |
| Pools.ArrayPool.Create | pool.ts:64-69 | takes one array from the pool (`fromCache`), calling the factory exactly when the pool is empty, and returns it emptied |
| Pools.ArrayPool.Release | pool.ts:71-73 | exactly `toCache(arr)` |
| Pools.ArrayPool.Seed | pool.ts:75-84 | the two loops leave the pool as `PoolModel.Seed` says; the stored count becomes `max(old count, count)`, and the factory is called once for each acquire beyond the items stored at the start |
| Pools.PairedAppend | pool.ts:93-102 | appending an acquire followed by its `attach`, or a `detach` followed by the store of the same item, keeps every event of the log paired with its partner |
| Pools.AttachablePool.constructor | pool.ts:89-91 | an empty pool with the caller's factory and an empty event log |
| Pools.AttachablePool.Pop | pool.ts:93-97 | `fromCache`, calling the factory exactly when the pool is empty, then exactly one `attach(payload)` on the item returned |
| Pools.AttachablePool.Push | pool.ts:99-102 | exactly one `detach()` on the item, then `toCache(item)` |
| Pools.GrowthScenario | pool.ts:25-52 | in a capacity-2 pool the second acquire is the recycled first item (one factory call in total); after two more releases the pool grows with its removal cursor at 1, and the next acquire returns the later release first, so order is not kept across growth |

## Left out

- What the factory builds is not modelled. It is a fixed function `factory: () -> T`, and a ghost counter records how often `fromCache` calls it. A factory that returns a distinct object on each call is therefore not modelled.
- The effects of `attach` and `detach` inside the user's objects are not modelled. The `Attachable` interface (pool.ts:1-4) is represented only by the order of its calls in the ghost log.
- Pools.ArrayPool.Create: returns a new empty sequence. It does not truncate the recycled array in place (`out.length = 0`), because arrays are modelled as values and the storage behind them is not observable.
- Holes in JS arrays are modelled as `None`. Reading a hole from a stored slot cannot happen while the invariant holds.
- Pools.Pool.constructor: requires `initialCapacity >= 1`, a choice of the model. The source behaves as follows for other values:
  - Capacity 0: `new Array(0)` is empty. The first `toCache` extends it to length 1 by writing slot 0 (pool.ts:39), the cursors then meet, and the pool grows to capacity 2 (pool.ts:43-50). From then on it behaves as a capacity-1 pool does; only `capacity()` reports 0 before the first release.
  - A negative, fractional or NaN capacity makes `new Array` throw a RangeError at pool.ts:15.
- Releasing the same object twice, or releasing an object that did not come from the pool, is not detected by the source and is not modelled.
- The failure paths of the caller's code are not modelled: the factory, `attach` and `detach` are total here. In the source an exception thrown by them propagates to the caller:
  - a throwing `factory()` (pool.ts:27) leaves the pool unchanged;
  - a throwing `attach` (pool.ts:95) comes after `fromCache` has advanced the removal cursor, so the item leaves the pool without reaching the caller;
  - a throwing `detach` (pool.ts:100) skips `toCache`, so the item is not stored;
  - a `factory()` that throws partway through the first loop of `seed` (pool.ts:78) leaves the items already taken out of the pool for good.
- Pools.ArrayPool.Seed: takes an integer `count`. In the source `count` is a JS number: a fractional `count` makes each loop of pool.ts:77 and pool.ts:81 run `ceil(count)` times, and NaN makes them run zero times; neither case is modelled. A negative `count` runs no iteration, as in the source.
- Pools.Pool.ToCache: integers are unbounded, so growth always succeeds here. In the source `new Array(this.buffer.length * 2)` (pool.ts:44) throws a RangeError once the doubled length exceeds the JS array length limit 2^32 - 1. That `toCache` then fails after the item is written and the insert cursor has advanced, leaving the cursors equal and the pool reading as empty.
- Concurrency is not modelled, because the source is single-threaded.

=== FILE: pool_lemmas.dfy ===
/**
  Properties of the ring-buffer model in PoolModel: what one `fromCache` or
  `toCache` does to the logical queue, what growth does to it, and what runs
  of calls (FIFO order while no growth happens, capacity after many releases,
  `seed`) add up to.
*/
module PoolLemmas {
  import opened PoolModel

  lemma {:induction false} WrapInjective<T>(a: seq<T>, b: seq<T>)
    requires Wrap(a) == Wrap(b)
    ensures a == b
  {
    assert |a| == |Wrap(a)| == |b|;
    forall i | 0 <= i < |a|
      ensures a[i] == b[i]
    {
      assert Wrap(a)[i] == Wrap(b)[i];
    }
  }

  lemma {:induction false} WrapConcat<T>(a: seq<T>, b: seq<T>)
    ensures Wrap(a + b) == Wrap(a) + Wrap(b)
  {
  }

  lemma {:induction false} WrapSlice<T>(a: seq<T>, k: nat)
    requires k <= |a|
    ensures Wrap(a[k..]) == Wrap(a)[k..] && Wrap(a[..k]) == Wrap(a)[..k]
  {
  }

  /** A state whose stored slots are `Wrap(q)` is valid and holds the queue `q`. */
  lemma {:induction false} ItemsFromOccupied<T>(s: State<T>, q: seq<T>)
    requires Shaped(s) && Occupied(s) == Wrap(q)
    ensures Valid(s) && Items(s) == q
  {
    WrapInjective(Items(s), q);
  }

  lemma {:induction false} OccupiedAfterFromCache<T>(s: State<T>)
    requires Shaped(s) && s.insertIndex != s.removalIndex
    ensures Occupied(s) != [] && Occupied(s)[0] == s.buffer[s.removalIndex]
    ensures Occupied(FromCache(s).0) == Occupied(s)[1..]
  {
    var b, n, ins, rem := s.buffer, |s.buffer|, s.insertIndex, s.removalIndex;
    var s' := FromCache(s).0;
    if rem < ins {
      assert s' == s.(removalIndex := rem + 1);
      assert Occupied(s') == b[rem + 1..ins];
    } else if rem + 1 < n {
      assert s' == s.(removalIndex := rem + 1);
      assert Occupied(s) == b[rem..] + b[..ins];
      assert Occupied(s)[1..] == b[rem + 1..] + b[..ins];
    } else {
      assert s' == s.(removalIndex := 0);
      assert Occupied(s) == [b[rem]] + b[..ins];
      assert Occupied(s') == b[..ins];
    }
  }

  lemma {:induction false} OccupiedAfterToCache<T>(s: State<T>, x: T)
    requires Shaped(s) && !Grows(s)
    ensures Occupied(ToCache(s, x)) == Occupied(s) + [Some(x)]
  {
    var b, n, ins, rem := s.buffer, |s.buffer|, s.insertIndex, s.removalIndex;
    var w := b[ins := Some(x)];
    if rem <= ins {
      if ins + 1 < n {
        assert w[rem..ins + 1] == b[rem..ins] + [Some(x)];
      } else {
        assert w[rem..] + w[..0] == b[rem..ins] + [Some(x)];
      }
    } else {
      assert w[rem..] == b[rem..];
      assert w[..ins + 1] == b[..ins] + [Some(x)];
    }
  }

  lemma {:induction false} OccupiedAfterGrowth<T>(s: State<T>, x: T)
    requires Shaped(s) && Grows(s)
    ensures |Occupied(s)| + 1 == |s.buffer|
    ensures Occupied(ToCache(s, x)) == Rotated(Occupied(s) + [Some(x)], |s.buffer| - s.removalIndex)
  {
    var b, n, ins, rem := s.buffer, |s.buffer|, s.insertIndex, s.removalIndex;
    var w := b[ins := Some(x)];
    assert Occupied(ToCache(s, x)) == w by {
      assert Grow(w)[0..n] == w;
    }
    var q := Occupied(s) + [Some(x)];
    if rem <= ins {
      assert q == w;
    } else {
      assert q[n - rem..] == w[..rem];
      assert q[..n - rem] == w[rem..];
      assert w == w[..rem] + w[rem..];
    }
  }

  lemma {:induction false} RotatedKeepsMultiset<A>(q: seq<A>, k: nat)
    requires k <= |q|
    ensures multiset(Rotated(q, k)) == multiset(q)
  {
    assert q == q[..k] + q[k..];
  }

  /** The stored count is the distance from the removal cursor to the insert
      cursor modulo the capacity, so equal cursors mean an empty pool. */
  lemma {:induction false} CountIsCursorDistance<T>(s: State<T>)
    requires Shaped(s)
    ensures Count(s) == (s.insertIndex - s.removalIndex) % Capacity(s)
    ensures Count(s) == 0 <==> s.insertIndex == s.removalIndex
  {
    var n, ins, rem := |s.buffer|, s.insertIndex, s.removalIndex;
    var c := Count(s);
    if rem <= ins {
      assert c == ins - rem;
      DistanceMod(ins - rem, n, c);
    } else {
      assert c + rem == n + ins;
      DistanceMod(ins - rem, n, c);
    }
  }

  lemma {:induction false} DistanceMod(d: int, n: int, r: int)
    requires 0 <= r < n && (d == r || d == r - n)
    ensures d % n == r
  {
    if d == r {
      assert d == 0 * n + r;
    } else {
      assert d == (-1) * n + r;
    }
  }

  /** `fromCache` (pool.ts:25-35). Equal cursors mean the queue is empty; then
      the factory serves the call and nothing changes. Otherwise the oldest
      item is returned, it leaves the queue, the removal cursor advances
      modulo the capacity, and the buffer and the insert cursor stay as they
      were. */
  lemma {:induction false} FromCacheEffect<T>(s: State<T>)
    requires Valid(s)
    ensures var (s', out) := FromCache(s);
      Valid(s') && s'.buffer == s.buffer && s'.insertIndex == s.insertIndex &&
      (s.insertIndex == s.removalIndex <==> Items(s) == []) &&
      (Items(s) == [] ==> s' == s && out == None) &&
      (Items(s) != [] ==>
        out == Some(Items(s)[0]) && Items(s') == Items(s)[1..] &&
        Count(s') == Count(s) - 1 &&
        s'.removalIndex == (s.removalIndex + 1) % Capacity(s))
  {
    NextIsMod(s.removalIndex, Capacity(s));
    if s.insertIndex != s.removalIndex {
      OccupiedAfterFromCache(s);
      WrapSlice(Items(s), 1);
      ItemsFromOccupied(FromCache(s).0, Items(s)[1..]);
    }
  }

  /** `toCache` without growth (pool.ts:39-40): only the slot at the insert
      cursor changes, that cursor advances modulo the capacity, the capacity
      and the removal cursor stay, and the item joins the back of the queue. */
  lemma {:induction false} ToCacheInPlace<T>(s: State<T>, x: T)
    requires Valid(s) && !Grows(s)
    ensures var s' := ToCache(s, x);
      Valid(s') && Capacity(s') == Capacity(s) &&
      s'.removalIndex == s.removalIndex &&
      s'.insertIndex == (s.insertIndex + 1) % Capacity(s) &&
      s'.buffer[s.insertIndex] == Some(x) &&
      (forall j :: 0 <= j < Capacity(s) && j != s.insertIndex ==> s'.buffer[j] == s.buffer[j]) &&
      Items(s') == Items(s) + [x]
  {
    NextIsMod(s.insertIndex, Capacity(s));
    OccupiedAfterToCache(s, x);
    WrapConcat(Items(s), [x]);
    ItemsFromOccupied(ToCache(s, x), Items(s) + [x]);
  }

  /** `toCache` with growth (pool.ts:43-50): the capacity doubles, the old
      slots (with the item just written) keep their positions, the cursors
      become `0` and the old capacity. The queue is then the old queue plus
      the item, read from where the removal cursor stood: a rotation, which
      is the release order only when that cursor was 0. */
  lemma {:induction false} ToCacheGrowth<T>(s: State<T>, x: T)
    requires Valid(s) && Grows(s)
    ensures Count(s) + 1 == Capacity(s)
    ensures var s' := ToCache(s, x);
      Valid(s') && Capacity(s') == 2 * Capacity(s) &&
      s'.removalIndex == 0 && s'.insertIndex == Capacity(s) &&
      (forall j :: 0 <= j < Capacity(s) ==>
        s'.buffer[j] == if j == s.insertIndex then Some(x) else s.buffer[j]) &&
      Items(s') == Rotated(Items(s) + [x], Capacity(s) - s.removalIndex) &&
      (s.removalIndex == 0 ==> Items(s') == Items(s) + [x])
  {
    var q := Items(s) + [x];
    var k := Capacity(s) - s.removalIndex;
    assert Count(s) + 1 == Capacity(s) && Valid(ToCache(s, x)) &&
      Items(ToCache(s, x)) == Rotated(q, k) by {
      GrowthRotates(s, x);
    }
    if s.removalIndex == 0 {
      assert Rotated(q, k) == q;
    }
  }

  lemma {:induction false} GrowthRotates<T>(s: State<T>, x: T)
    requires Valid(s) && Grows(s)
    ensures Count(s) + 1 == Capacity(s)
    ensures Valid(ToCache(s, x)) &&
      Items(ToCache(s, x)) == Rotated(Items(s) + [x], Capacity(s) - s.removalIndex)
  {
    var q := Items(s) + [x];
    var k := Capacity(s) - s.removalIndex;
    var w := Occupied(s) + [Some(x)];
    assert |Occupied(s)| + 1 == Capacity(s) && Occupied(ToCache(s, x)) == Rotated(w, k) by {
      OccupiedAfterGrowth(s, x);
    }
    assert Wrap(q) == w by {
      WrapConcat(Items(s), [x]);
      assert Wrap([x]) == [Some(x)];
    }
    assert Wrap(Rotated(q, k)) == Rotated(w, k) by {
      WrapSlice(q, k);
      WrapConcat(q[k..], q[..k]);
    }
    ItemsFromOccupied(ToCache(s, x), Rotated(q, k));
  }

  /** `toCache` stores one more item, keeping every item
      already stored; it grows exactly when the pool would otherwise be full. */
  lemma {:induction false} ToCacheEffect<T>(s: State<T>, x: T)
    requires Valid(s)
    ensures var s' := ToCache(s, x);
      Valid(s') && Count(s') == Count(s) + 1 &&
      multiset(Items(s')) == multiset(Items(s)) + multiset{x} &&
      (Grows(s) <==> Count(s) + 1 == Capacity(s))
  {
    var s' := ToCache(s, x);
    if Grows(s) {
      GrowthKeepsItems(s, x);
    } else {
      assert Valid(s') && Items(s') == Items(s) + [x] && Capacity(s') == Capacity(s) by {
        ToCacheInPlace(s, x);
      }
      assert multiset(Items(s')) == multiset(Items(s)) + multiset{x};
    }
  }

  lemma {:induction false} GrowthKeepsItems<T>(s: State<T>, x: T)
    requires Valid(s) && Grows(s)
    ensures Count(s) + 1 == Capacity(s)
    ensures var s' := ToCache(s, x);
      Valid(s') && Count(s') == Count(s) + 1 &&
      multiset(Items(s')) == multiset(Items(s)) + multiset{x}
  {
    ToCacheGrowth(s, x);
    var q := Items(s) + [x];
    var k: nat := Capacity(s) - s.removalIndex;
    var r := Rotated(q, k);
    assert Items(ToCache(s, x)) == r;
    RotatedKeepsMultiset(q, k);
  }

  /** Adding one item to a pool whose capacity fits `n` items changes the
      fitting capacity only when `n + 1` reaches it, and then doubles it. */
  lemma {:induction false} FitStep(c: nat, n: nat)
    requires c >= 1
    ensures Fit(c, n + 1) == if n + 1 == Fit(c, n) then 2 * Fit(c, n) else Fit(c, n)
    decreases n + 1 - c
  {
    if n + 1 == c {
      assert Fit(2 * c, n + 1) == 2 * c;
    } else if c <= n {
      FitStep(2 * c, n);
    }
  }

  lemma {:induction false} DoublingOfTwice(c: nat, f: nat)
    requires c >= 1 && DoublingOf(2 * c, f)
    ensures DoublingOf(c, f)
    decreases f
  {
    if f != 2 * c {
      DoublingOfTwice(c, f / 2);
    }
  }

  /** The fitting capacity is the old one doubled some number of times. */
  lemma {:induction false} FitIsDoubling(c: nat, n: nat)
    requires c >= 1
    ensures DoublingOf(c, Fit(c, n))
    decreases n + 1 - c
  {
    if c <= n {
      FitIsDoubling(2 * c, n);
      DoublingOfTwice(c, Fit(2 * c, n));
    }
  }

  /** Releasing `xs` one by one (pool.ts:37-52 in a row): the count grows by
      `|xs|` and every item stored before or released is kept. */
  lemma {:induction false} PushAllEffect<T>(s: State<T>, xs: seq<T>)
    requires Valid(s)
    ensures var r := PushAll(s, xs);
      Valid(r) && Count(r) == Count(s) + |xs| &&
      multiset(Items(r)) == multiset(Items(s)) + multiset(xs)
    decreases |xs|
  {
    if xs != [] {
      var init, x := xs[..|xs| - 1], xs[|xs| - 1];
      PushAllEffect(s, init);
      var m := PushAll(s, init);
      assert PushAll(s, xs) == ToCache(m, x);
      ToCacheEffect(m, x);
      assert multiset(xs) == multiset(init) + multiset{x} by {
        assert xs == init + [x];
      }
    }
  }

  /** One `toCache` stores one more slot whatever the slots hold, and it
      grows exactly when the pool would otherwise be full. */
  lemma {:induction false} ToCacheCount<T>(s: State<T>, x: T)
    requires Shaped(s)
    ensures Count(ToCache(s, x)) == Count(s) + 1
    ensures Grows(s) <==> Count(s) + 1 == Capacity(s)
  {
    if Grows(s) {
      OccupiedAfterGrowth(s, x);
    } else {
      OccupiedAfterToCache(s, x);
    }
  }

  lemma {:induction false} PushAllCount<T>(s: State<T>, xs: seq<T>)
    requires Shaped(s)
    ensures Count(PushAll(s, xs)) == Count(s) + |xs|
    decreases |xs|
  {
    if xs != [] {
      var init := xs[..|xs| - 1];
      PushAllCount(s, init);
      ToCacheCount(PushAll(s, init), xs[|xs| - 1]);
    }
  }

  /** The capacity after releasing `xs` one by one is the old capacity
      doubled until it holds every item stored with a slot to spare, and no
      further (Fit). */
  lemma {:induction false} PushAllCapacity<T>(s: State<T>, xs: seq<T>)
    requires Shaped(s)
    ensures Capacity(PushAll(s, xs)) == Fit(Capacity(s), Count(s) + |xs|)
    decreases |xs|
  {
    if xs == [] {
      assert PushAll(s, xs) == s;
    } else {
      var n := Count(s) + |xs| - 1;
      assert n == Count(s) + |xs[..|xs| - 1]|;
      PushAllCapacity(s, xs[..|xs| - 1]);
      PushAllLast(s, xs);
      FitStep(Capacity(s), n);
      assert n + 1 == Count(s) + |xs|;
    }
  }

  /** The last of a run of releases doubles the capacity exactly when it
      would fill the buffer. */
  lemma {:induction false} PushAllLast<T>(s: State<T>, xs: seq<T>)
    requires Shaped(s) && xs != []
    ensures var cap := Capacity(PushAll(s, xs[..|xs| - 1]));
      Capacity(PushAll(s, xs)) == if Count(s) + |xs| == cap then 2 * cap else cap
  {
    var init, x := xs[..|xs| - 1], xs[|xs| - 1];
    var m := PushAll(s, init);
    PushAllCount(s, init);
    ToCacheCount(m, x);
    assert PushAll(s, xs) == ToCache(m, x);
  }

  /** While no growth happens, released items queue up in release order. */
  lemma {:induction false} PushAllInOrder<T>(s: State<T>, xs: seq<T>)
    requires Valid(s) && Count(s) + |xs| < Capacity(s)
    ensures var r := PushAll(s, xs);
      Valid(r) && Capacity(r) == Capacity(s) && Items(r) == Items(s) + xs
    decreases |xs|
  {
    if xs != [] {
      var init, x := xs[..|xs| - 1], xs[|xs| - 1];
      PushAllInOrder(s, init);
      var m := PushAll(s, init);
      ToCacheEffect(m, x);
      ToCacheInPlace(m, x);
      assert xs == init + [x];
      assert Items(s) + xs == (Items(s) + init) + [x];
    }
  }

  lemma {:induction false} PopNStepRecycled<T>(q: seq<T>, n: nat, m: State<T>, taken: seq<Option<T>>)
    requires 0 < n <= |q|
    requires Valid(m) && Items(m) == q[n - 1..] && taken == Wrap(q[..n - 1])
    ensures Valid(FromCache(m).0) && Items(FromCache(m).0) == q[n..]
    ensures taken + [FromCache(m).1] == Wrap(q[..n])
  {
    FromCacheEffect(m);
    assert q[n - 1..][1..] == q[n..];
    assert q[..n] == q[..n - 1] + [q[n - 1]];
    WrapConcat(q[..n - 1], [q[n - 1]]);
  }

  lemma {:induction false} PopNStepCold<T>(q: seq<T>, n: nat, m: State<T>, taken: seq<Option<T>>)
    requires |q| < n
    requires Valid(m) && Items(m) == [] && taken == Wrap(q) + Holes(n - 1 - |q|)
    ensures Valid(FromCache(m).0) && Items(FromCache(m).0) == []
    ensures taken + [FromCache(m).1] == Wrap(q) + Holes(n - |q|)
  {
    FromCacheEffect(m);
    assert Holes<T>(n - 1 - |q|) + [None] == Holes(n - |q|);
  }

  lemma {:induction false} PopNNext<T>(s: State<T>, n: nat)
    requires Shaped(s)
    ensures PopN(s, n + 1).0 == FromCache(PopN(s, n).0).0
    ensures PopN(s, n + 1).1 == PopN(s, n).1 + [FromCache(PopN(s, n).0).1]
  {
  }

  lemma {:induction false} FillNext<T>(taken: seq<Option<T>>, o: Option<T>, made: T)
    ensures Fill(taken + [o], made) == Fill(taken, made) + [if o.Some? then o.value else made]
  {
  }

  lemma {:induction false} PushAllNext<T>(s: State<T>, xs: seq<T>, i: nat)
    requires Shaped(s) && i < |xs|
    ensures PushAll(s, xs[..i + 1]) == ToCache(PushAll(s, xs[..i]), xs[i])
  {
    assert xs[..i + 1][..i] == xs[..i];
  }

  /** `n` acquires in a row: the first `min(n, count)` return the stored items
      oldest first and remove them; the remaining ones fall back on the factory. */
  lemma {:induction false} PopNEffect<T>(s: State<T>, n: nat)
    requires Valid(s)
    ensures Valid(PopN(s, n).0)
    ensures Items(PopN(s, n).0) == Items(s)[Min(n, Count(s))..]
    ensures PopN(s, n).1 == Wrap(Items(s)[..Min(n, Count(s))]) + Holes(n - Min(n, Count(s)))
  {
    var q := Items(s);
    if n <= Count(s) {
      PopNRecycled(s, n);
      assert Min(n, Count(s)) == n;
      assert Holes<T>(0) == [];
    } else {
      PopNCold(s, n);
      assert Min(n, Count(s)) == |q|;
      assert q[..|q|] == q && q[|q|..] == [];
    }
  }

  /** While stored items remain, the `n`-th acquire returns the `n`-th oldest. */
  lemma {:induction false} PopNRecycled<T>(s: State<T>, n: nat)
    requires Valid(s) && n <= Count(s)
    ensures Valid(PopN(s, n).0) && Items(PopN(s, n).0) == Items(s)[n..]
    ensures PopN(s, n).1 == Wrap(Items(s)[..n])
    decreases n
  {
    if n == 0 {
      assert Items(s)[0..] == Items(s) && Items(s)[..0] == [];
    } else {
      PopNRecycled(s, n - 1);
      PopNNext(s, n - 1);
      PopNStepRecycled(Items(s), n, PopN(s, n - 1).0, PopN(s, n - 1).1);
    }
  }

  /** Acquiring exactly as many items as are stored empties the pool. */
  lemma {:induction false} PopNAll<T>(s: State<T>)
    requires Valid(s)
    ensures Valid(PopN(s, Count(s)).0) && Items(PopN(s, Count(s)).0) == []
    ensures PopN(s, Count(s)).1 == Wrap(Items(s)) + Holes(0)
  {
    var q := Items(s);
    PopNRecycled(s, |q|);
    assert q[|q|..] == [] && q[..|q|] == q;
    assert Holes<T>(0) == [];
  }

  /** Once the stored items are used up, each acquire falls back on the
      factory and leaves the pool empty. */
  lemma {:induction false} PopNCold<T>(s: State<T>, n: nat)
    requires Valid(s) && Count(s) < n
    ensures Valid(PopN(s, n).0) && Items(PopN(s, n).0) == []
    ensures PopN(s, n).1 == Wrap(Items(s)) + Holes(n - Count(s))
    decreases n
  {
    var q := Items(s);
    var (m, taken) := PopN(s, n - 1);
    assert Valid(m) && Items(m) == [] && taken == Wrap(q) + Holes(n - 1 - |q|) by {
      if n - 1 == Count(s) {
        PopNAll(s);
      } else {
        PopNCold(s, n - 1);
      }
    }
    PopNNext(s, n - 1);
    PopNStepCold(q, n, m, taken);
  }

  /** Acquire number `i + 1` of a run calls the factory exactly when the
      items stored at the start are used up. */
  lemma {:induction false} PopNFactoryStep<T>(s: State<T>, i: nat)
    requires Valid(s)
    ensures FromCache(PopN(s, i).0).1.None? <==> Count(s) <= i
  {
    var m := PopN(s, i).0;
    PopNEffect(s, i);
    FromCacheEffect(m);
    assert |Items(m)| == Count(s) - Min(i, Count(s));
  }

  /** The number of factory calls among the first `i` acquires, `i - min(i, c)`,
      grows by one exactly at the acquires that find the pool empty. */
  lemma {:induction false} ColdCount(i: nat, c: nat, cold: bool)
    requires cold <==> c <= i
    ensures (i + 1) - Min(i + 1, c) == (i - Min(i, c)) + (if cold then 1 else 0)
  {
  }

  /** The ring buffer is FIFO while it does not grow: releasing `xs` and then
      acquiring as many items as are stored returns the items already stored
      followed by `xs`, each in its original order. */
  lemma {:induction false} ReleasesThenAcquiresInOrder<T>(s: State<T>, xs: seq<T>)
    requires Valid(s) && Count(s) + |xs| < Capacity(s)
    ensures PopN(PushAll(s, xs), Count(s) + |xs|).1 == Wrap(Items(s) + xs)
  {
    var r := PushAll(s, xs);
    var n := Count(s) + |xs|;
    assert Valid(r) && Items(r) == Items(s) + xs && Count(r) == n by {
      PushAllInOrder(s, xs);
    }
    assert PopN(r, n).1 == Wrap(Items(r)[..n]) + Holes(0) by {
      PopNEffect(r, n);
    }
    assert Items(r)[..n] == Items(r);
    assert Holes<T>(0) == [];
  }

  lemma {:induction false} FillTaken<T>(q: seq<T>, extra: nat, made: T)
    ensures Fill(Wrap(q) + Holes(extra), made) == q + Repeat(made, extra)
  {
  }

  /** What the `count` acquires of `seed` leave: the pool without its
      `min(count, stored)` oldest items, and in the caller's hands those items
      followed by factory results. */
  lemma {:induction false} SeedAcquired<T>(s: State<T>, count: nat, made: T)
    requires Valid(s)
    ensures var (m, taken) := PopN(s, count);
      var k := Min(count, Count(s));
      Valid(m) && Items(m) == Items(s)[k..] && Capacity(m) == Capacity(s) &&
      Fill(taken, made) == Items(s)[..k] + Repeat(made, count - k)
  {
    PopNEffect(s, count);
    var k := Min(count, Count(s));
    FillTaken(Items(s)[..k], count - k, made);
  }

  /** `ArrayPool.seed(count)` (pool.ts:75-84): the stored count becomes the
      larger of the old count and `count`; nothing stored is lost, and the
      items added are the factory's. */
  lemma {:induction false} SeedEffect<T>(s: State<T>, count: nat, made: T)
    requires Valid(s)
    ensures var r := Seed(s, count, made);
      Valid(r) && Count(r) == Max(Count(s), count) &&
      multiset(Items(r)) ==
        multiset(Items(s)) + multiset(Repeat(made, count - Min(count, Count(s))))
  {
    var (m, taken) := PopN(s, count);
    var k := Min(count, Count(s));
    var q := Items(s);
    var xs := Fill(taken, made);
    SeedAcquired(s, count, made);
    assert multiset(q[k..]) + multiset(xs) == multiset(q) + multiset(Repeat(made, count - k)) by {
      assert q == q[..k] + q[k..];
    }
    PushAllEffect(m, xs);
  }

  /** The capacity after `seed(count)` is the least doubling of the old one
      that holds the larger of the old count and `count`; in particular it is
      unchanged when `count` does not exceed the capacity minus one. */
  lemma {:induction false} SeedCapacity<T>(s: State<T>, count: nat, made: T)
    requires Valid(s)
    ensures Capacity(Seed(s, count, made)) ==
      Fit(Capacity(s), Max(Count(s), count))
  {
    var (m, taken) := PopN(s, count);
    SeedAcquired(s, count, made);
    PushAllCapacity(m, Fill(taken, made));
  }

  /** Seeding no more than is stored acquires the `count` oldest items and
      releases them again without growth: they move to the back of the queue. */
  lemma {:induction false} SeedRotates<T>(s: State<T>, count: nat, made: T)
    requires Valid(s) && count <= Count(s)
    ensures var r := Seed(s, count, made);
      Valid(r) && Capacity(r) == Capacity(s) && Items(r) == Rotated(Items(s), count)
  {
    PopNEffect(s, count);
    var (m, taken) := PopN(s, count);
    var q := Items(s);
    FillTaken(q[..count], 0, made);
    var xs := Fill(taken, made);
    assert Holes<T>(0) == [];
    assert Repeat(made, 0) == [];
    assert xs == q[..count];
    PushAllInOrder(m, xs);
  }
}

=== FILE: pool_model.dfy ===
/**
  A value model of the ring buffer behind `Pool<T>` (pool.ts): the three fields
  of a pool as one datatype, and `fromCache`, `toCache` (with its growth step),
  runs of them, and `ArrayPool.seed` as functions on it. The classes in module
  Pools are proved to change their fields exactly as these functions say; the
  properties of the functions are proved in module PoolLemmas.
*/
module PoolModel {

  datatype Option<T> = None | Some(value: T)

  /** The fields of a pool. A slot that `new Array(n)` left empty is `None`. */
  datatype State<T> = State(buffer: seq<Option<T>>, insertIndex: nat, removalIndex: nat)

  /** What the index arithmetic needs: a non-empty buffer (the `%` by its
      length) and both cursors inside it. */
  predicate Shaped<T>(s: State<T>) {
    |s.buffer| >= 1 && s.insertIndex < |s.buffer| && s.removalIndex < |s.buffer|
  }

  /** `capacity()`: the length of the buffer. */
  function Capacity<T>(s: State<T>): nat {
    |s.buffer|
  }

  /** The slots that hold stored items, in the order `fromCache` reads them:
      from the removal cursor up to the insert cursor, wrapping at the end. */
  function Occupied<T>(s: State<T>): seq<Option<T>>
    requires Shaped(s)
  {
    if s.removalIndex <= s.insertIndex then s.buffer[s.removalIndex..s.insertIndex]
    else s.buffer[s.removalIndex..] + s.buffer[..s.insertIndex]
  }

  /** The representation invariant: the cursors are in range and no stored
      slot is a hole. */
  predicate Valid<T>(s: State<T>) {
    Shaped(s) && forall i :: 0 <= i < |Occupied(s)| ==> Occupied(s)[i].Some?
  }

  /** The logical queue: the stored items, oldest first. */
  function Items<T>(s: State<T>): (q: seq<T>)
    requires Valid(s)
    ensures Wrap(q) == Occupied(s)
  {
    var o := Occupied(s);
    seq(|o|, i requires 0 <= i < |o| => o[i].value)
  }

  function Wrap<T>(q: seq<T>): seq<Option<T>> {
    seq(|q|, i requires 0 <= i < |q| => Some(q[i]))
  }

  /** `k` empty slots. */
  function Holes<T>(k: nat): seq<Option<T>> {
    seq(k, _ => None)
  }

  /** The queue `q` read starting at position `k`, wrapping round to its start. */
  function Rotated<A>(q: seq<A>, k: nat): seq<A>
    requires k <= |q|
  {
    q[k..] + q[..k]
  }

  /** The number of stored items. It is always below the capacity: a pool
      never stores as many items as it has slots, so equal cursors mean an
      empty pool. */
  function Count<T>(s: State<T>): (n: nat)
    requires Shaped(s)
    ensures n < Capacity(s)
  {
    |Occupied(s)|
  }

  /** The cursor after `i` in a buffer of `n` slots, wrapping to 0 at the
      end: `(i + 1) % n` (NextIsMod). */
  function Next(i: nat, n: nat): (r: nat)
    requires i < n
    ensures r < n
  {
    if i + 1 < n then i + 1 else 0
  }

  lemma {:induction false} NextIsMod(i: nat, n: nat)
    requires i < n
    ensures Next(i, n) == (i + 1) % n
  {
    if i + 1 < n {
      assert i + 1 == 0 * n + (i + 1);
    } else {
      assert i + 1 == 1 * n + 0;
    }
  }

  /** `fromCache` on the fields: when the cursors are equal nothing changes and
      the factory serves the request (`None`); otherwise the slot at the removal
      cursor is returned and that cursor advances modulo the capacity. */
  function FromCache<T>(s: State<T>): (r: (State<T>, Option<T>))
    requires Shaped(s)
    ensures Shaped(r.0) && r.0.buffer == s.buffer && r.0.insertIndex == s.insertIndex
  {
    if s.insertIndex == s.removalIndex then (s, None)
    else (s.(removalIndex := Next(s.removalIndex, |s.buffer|)), s.buffer[s.removalIndex])
  }

  /** The growth step's new buffer: twice as long, the old slots copied to the
      same positions, the new upper half empty. */
  function Grow<T>(b: seq<Option<T>>): (g: seq<Option<T>>)
    ensures |g| == 2 * |b|
  {
    b + Holes(|b|)
  }

  /** Whether `toCache` on `s` grows the buffer: the advanced insert cursor
      would meet the removal cursor. */
  predicate Grows<T>(s: State<T>)
    requires Shaped(s)
  {
    Next(s.insertIndex, |s.buffer|) == s.removalIndex
  }

  /** `toCache(item)` on the fields: write at the insert cursor, advance it,
      and if it then meets the removal cursor replace the buffer by the grown
      one with the cursors reset to `0` and the old length. */
  function ToCache<T>(s: State<T>, item: T): (r: State<T>)
    requires Shaped(s)
    ensures Shaped(r)
    ensures Capacity(r) == if Grows(s) then 2 * Capacity(s) else Capacity(s)
  {
    var written := s.buffer[s.insertIndex := Some(item)];
    var next := Next(s.insertIndex, |written|);
    if next == s.removalIndex then State(Grow(written), |written|, 0)
    else s.(buffer := written, insertIndex := next)
  }

  /** `toCache` applied to each of `xs` in turn. */
  function PushAll<T>(s: State<T>, xs: seq<T>): (r: State<T>)
    requires Shaped(s)
    ensures Shaped(r)
    decreases |xs|
  {
    if xs == [] then s else ToCache(PushAll(s, xs[..|xs| - 1]), xs[|xs| - 1])
  }

  /** `fromCache` called `n` times: the final state and what each call
      returned (`None` where the factory served it). */
  function PopN<T>(s: State<T>, n: nat): (r: (State<T>, seq<Option<T>>))
    requires Shaped(s)
    ensures Shaped(r.0) && r.0.buffer == s.buffer && |r.1| == n
  {
    if n == 0 then (s, [])
    else
      var (m, taken) := PopN(s, n - 1);
      var (m', out) := FromCache(m);
      (m', taken + [out])
  }

  /** The objects a caller holds after the calls in `taken`: the recycled
      ones, and `made` where the factory was asked. */
  function Fill<T>(taken: seq<Option<T>>, made: T): seq<T> {
    seq(|taken|, i requires 0 <= i < |taken| => if taken[i].Some? then taken[i].value else made)
  }

  /** `count` copies of `x`. */
  function Repeat<T>(x: T, count: nat): seq<T> {
    seq(count, _ => x)
  }

  /** `ArrayPool.seed(count)` on the fields: `count` calls of `fromCache`, then
      the objects obtained handed back with `toCache` in the order obtained.
      `made` is what the factory returns. */
  function Seed<T>(s: State<T>, count: nat, made: T): (r: State<T>)
    requires Shaped(s)
    ensures Shaped(r)
  {
    var (m, taken) := PopN(s, count);
    PushAll(m, Fill(taken, made))
  }

  function Max(a: int, b: int): int {
    if a < b then b else a
  }

  function Min(a: int, b: int): int {
    if a < b then a else b
  }

  /** `f` is `c` doubled zero or more times. */
  predicate DoublingOf(c: nat, f: nat)
    decreases f
  {
    f == c || (c < f && f % 2 == 0 && DoublingOf(c, f / 2))
  }

  /** The capacity a buffer of capacity `c` reaches by doubling until it
      holds `n` items with a slot to spare: the least `c * 2^m` above `n`. */
  function Fit(c: nat, n: nat): (f: nat)
    requires c >= 1
    ensures n < f && c <= f
    ensures f == c || f / 2 <= n
    decreases n + 1 - c
  {
    if n < c then c else Fit(2 * c, n)
  }
}

=== FILE: pools.dfy ===
/**
  The pool classes of pool.ts. `Pool` keeps its fields as the source does and
  each method is proved to change them exactly as the matching function of
  PoolModel says. `ArrayPool` and `AttachablePool` reuse a `Pool` by delegation.
*/
module Pools {
  import opened PoolModel
  import PoolLemmas

  /** The ring-buffer object pool (pool.ts:5-53). */
  class Pool<T> {
    var insertIndex: nat
    var removalIndex: nat
    var buffer: array<Option<T>>
    /** The caller's factory; what it builds is not modelled. */
    const factory: () -> T
    /** How many times `fromCache` fell back on the factory. */
    ghost var FactoryCalls: nat

    /** The fields as a value of the model. */
    ghost function Model(): State<T>
      reads this, buffer
    {
      State(buffer[..], insertIndex, removalIndex)
    }

    ghost predicate Valid()
      reads this, buffer
    {
      PoolModel.Valid(Model())
    }

    /** A pool of `initialCapacity` empty slots, cursors at 0 (pool.ts:6-7, 14-16). */
    constructor(initialCapacity: nat, factory: () -> T)
      requires initialCapacity >= 1
      ensures Valid() && fresh(buffer) && this.factory == factory && FactoryCalls == 0
      ensures Model() == State(Holes(initialCapacity), 0, 0)
      ensures Items(Model()) == [] && PoolModel.Capacity(Model()) == initialCapacity
    {
      this.factory := factory;
      buffer := new Option<T>[initialCapacity](_ => None);
      insertIndex, removalIndex := 0, 0;
      FactoryCalls := 0;
    }

    /** `capacity()`: the length of the buffer, which always exceeds the
        number of stored items. */
    function Capacity(): (c: nat)
      reads this, buffer
      requires Valid()
      ensures c == PoolModel.Capacity(Model()) && Count(Model()) < c
    {
      buffer.Length
    }

    /** `fromCache()`: the oldest stored item, or the factory's result when
        the cursors are equal. The buffer is not written. */
    method FromCache() returns (out: T)
      requires Valid()
      modifies this
      ensures Valid() && buffer == old(buffer)
      ensures var (next, taken) := PoolModel.FromCache(old(Model()));
        Model() == next &&
        out == (if taken.Some? then taken.value else factory()) &&
        FactoryCalls == old(FactoryCalls) + (if taken.None? then 1 else 0)
      ensures Items(old(Model())) == [] ==> out == factory()
      ensures Items(old(Model())) != [] ==> out == Items(old(Model()))[0]
    {
      PoolLemmas.FromCacheEffect(Model());
      if insertIndex == removalIndex {
        out := factory();
        FactoryCalls := FactoryCalls + 1;
        return;
      }
      var slot := buffer[removalIndex];
      NextIsMod(removalIndex, buffer.Length);
      removalIndex := (removalIndex + 1) % buffer.Length;
      out := slot.value;
    }

    /** `toCache(item)`: store the item at the insert cursor; when the
        advanced insert cursor meets the removal cursor, copy the buffer into
        one twice as long and reset the cursors. */
    method ToCache(item: T)
      requires Valid()
      modifies this, buffer
      ensures Valid() && Model() == PoolModel.ToCache(old(Model()), item)
      ensures buffer == old(buffer) || fresh(buffer)
      ensures FactoryCalls == old(FactoryCalls)
    {
      ghost var before := Model();
      buffer[insertIndex] := Some(item);
      NextIsMod(insertIndex, buffer.Length);
      insertIndex := (insertIndex + 1) % buffer.Length;
      ghost var written := buffer[..];
      assert written == before.buffer[before.insertIndex := Some(item)];
      if insertIndex == removalIndex {
        var nextBuffer := new Option<T>[buffer.Length * 2](_ => None);
        var i := 0;
        while i < buffer.Length
          invariant 0 <= i <= buffer.Length
          invariant forall j :: 0 <= j < i ==> nextBuffer[j] == buffer[j]
          invariant forall j :: i <= j < nextBuffer.Length ==> nextBuffer[j] == None
          modifies nextBuffer
        {
          nextBuffer[i] := buffer[i];
          i := i + 1;
        }
        assert nextBuffer[..] == Grow(written);
        removalIndex := 0;
        insertIndex := buffer.Length;
        buffer := nextBuffer;
        assert PoolModel.ToCache(before, item) == State(Grow(written), |written|, 0);
      } else {
        assert PoolModel.ToCache(before, item) == State(written, insertIndex, removalIndex);
      }
      assert Model() == PoolModel.ToCache(before, item);
      assert PoolModel.Valid(PoolModel.ToCache(before, item)) by {
        PoolLemmas.ToCacheEffect(before, item);
      }
    }
  }

  /** A pool of arrays (pool.ts:59-85), modelled as sequences; its factory
      makes an empty one. */
  class ArrayPool<E> {
    const pool: Pool<seq<E>>

    ghost predicate Valid()
      reads this, pool, pool.buffer
    {
      pool.Valid() && pool.factory() == []
    }

    constructor(initialCapacity: nat)
      requires initialCapacity >= 1
      ensures Valid() && fresh(pool) && fresh(pool.buffer)
      ensures Items(pool.Model()) == [] && Capacity(pool.Model()) == initialCapacity
    {
      pool := new Pool(initialCapacity, () => []);
    }

    /** `create()`: take an array from the pool and empty it. */
    method Create() returns (out: seq<E>)
      requires Valid()
      modifies pool
      ensures Valid() && pool.buffer == old(pool.buffer)
      ensures pool.Model() == PoolModel.FromCache(old(pool.Model())).0
      ensures pool.FactoryCalls ==
        old(pool.FactoryCalls) + (if PoolModel.FromCache(old(pool.Model())).1.None? then 1 else 0)
      ensures out == []
    {
      var recycled := pool.FromCache();
      out := [];
    }

    /** `release(arr)`: exactly `toCache(arr)`. */
    method Release(arr: seq<E>)
      requires Valid()
      modifies pool, pool.buffer
      ensures Valid() && pool.Model() == PoolModel.ToCache(old(pool.Model()), arr)
      ensures pool.buffer == old(pool.buffer) || fresh(pool.buffer)
    {
      pool.ToCache(arr);
    }

    /** `seed(count)`: `count` calls of `fromCache`, then the arrays obtained
        handed back with `toCache` in the order obtained. Afterwards the pool
        stores `max(old count, count)` arrays. */
    method Seed(count: int)
      requires Valid()
      modifies pool, pool.buffer
      ensures Valid() && (pool.buffer == old(pool.buffer) || fresh(pool.buffer))
      ensures pool.Model() == PoolModel.Seed(old(pool.Model()), Max(count, 0), [])
      ensures Count(pool.Model()) == Max(Count(old(pool.Model())), count)
      ensures pool.FactoryCalls ==
        old(pool.FactoryCalls) + (Max(count, 0) - Min(Max(count, 0), Count(old(pool.Model()))))
    {
      ghost var start := pool.Model();
      ghost var n: nat := Max(count, 0);
      ghost var calls0 := pool.FactoryCalls;
      ghost var made: nat := 0;
      var backIn: seq<seq<E>> := [];
      var i := 0;
      while i < count
        invariant 0 <= i <= n
        invariant Valid() && pool.buffer == old(pool.buffer)
        invariant pool.Model() == PopN(start, i).0
        invariant backIn == Fill(PopN(start, i).1, [])
        invariant pool.FactoryCalls == calls0 + made && made == i - Min(i, Count(start))
      {
        ghost var before := pool.Model();
        ghost var cold := PoolModel.FromCache(before).1.None?;
        PoolLemmas.PopNFactoryStep(start, i);
        PoolLemmas.ColdCount(i, Count(start), cold);
        var x := pool.FromCache();
        made := made + if cold then 1 else 0;
        PoolLemmas.PopNNext(start, i);
        PoolLemmas.FillNext(PopN(start, i).1, PoolModel.FromCache(before).1, []);
        backIn := backIn + [x];
        i := i + 1;
      }
      assert i == n && made == n - Min(n, Count(start));
      ghost var middle := pool.Model();
      assert PoolModel.Seed(start, n, []) == PushAll(middle, backIn);
      i := 0;
      while i < count
        invariant 0 <= i <= n && |backIn| == n
        invariant Valid() && (pool.buffer == old(pool.buffer) || fresh(pool.buffer))
        invariant pool.Model() == PushAll(middle, backIn[..i])
        invariant pool.FactoryCalls == calls0 + made
      {
        PoolLemmas.PushAllNext(middle, backIn, i);
        pool.ToCache(backIn[i]);
        i := i + 1;
      }
      assert i == n && backIn[..i] == backIn;
      assert pool.Model() == PushAll(middle, backIn);
      assert Count(pool.Model()) == Max(Count(start), count) by {
        PoolLemmas.SeedEffect(start, n, []);
      }
    }
  }

  /** What `AttachablePool` does to the items it hands out and takes back, in
      order: the pool operations and the calls of the items' own `attach` and
      `detach` (pool.ts:1-4), whose effect is not modelled. */
  datatype Event<T, E> =
    | Taken(item: T)
    | Attached(item: T, payload: Option<E>)
    | Detached(item: T)
    | Stored(item: T)

  /** Position `i` of `log` is in order: an item taken is attached at once,
      an attach follows the taking of the same item, a `detach` is followed
      at once by the storing of the same item, and an item is stored right
      after its `detach`. */
  ghost predicate PairedAt<T, E>(log: seq<Event<T, E>>, i: nat)
    requires i < |log|
  {
    (log[i].Taken? ==> i + 1 < |log| && log[i + 1].Attached? && log[i + 1].item == log[i].item) &&
    (log[i].Attached? ==> 0 < i && log[i - 1] == Taken(log[i].item)) &&
    (log[i].Detached? ==> i + 1 < |log| && log[i + 1] == Stored(log[i].item)) &&
    (log[i].Stored? ==> 0 < i && log[i - 1] == Detached(log[i].item))
  }

  ghost predicate Paired<T, E>(log: seq<Event<T, E>>) {
    forall i :: 0 <= i < |log| ==> PairedAt(log, i)
  }

  lemma {:induction false} PairedAppend<T, E>(log: seq<Event<T, E>>, a: Event<T, E>, b: Event<T, E>)
    requires Paired(log) && PairedAt([a, b], 0) && PairedAt([a, b], 1)
    ensures Paired(log + [a, b])
  {
    var log' := log + [a, b];
    forall i | 0 <= i < |log'|
      ensures PairedAt(log', i)
    {
      if i < |log| {
        assert PairedAt(log, i);
        assert log'[i] == log[i];
        if i + 1 < |log| {
          assert log'[i + 1] == log[i + 1];
        }
        if 0 < i {
          assert log'[i - 1] == log[i - 1];
        }
      } else {
        assert log'[|log|] == a && log'[|log| + 1] == b;
        assert !a.Attached? && !a.Stored?;
      }
    }
  }

  /** A pool of items with an `attach`/`detach` lifecycle (pool.ts:87-103). */
  class AttachablePool<E, T> {
    const pool: Pool<T>
    /** The calls made so far, oldest first. */
    ghost var Log: seq<Event<T, E>>

    ghost predicate Valid()
      reads this, pool, pool.buffer
    {
      pool.Valid() && Paired(Log)
    }

    constructor(initialCapacity: nat, factory: () -> T)
      requires initialCapacity >= 1
      ensures Valid() && fresh(pool) && fresh(pool.buffer) && Log == []
      ensures pool.factory == factory
      ensures Items(pool.Model()) == [] && Capacity(pool.Model()) == initialCapacity
    {
      pool := new Pool(initialCapacity, factory);
      Log := [];
    }

    /** `pop(item?)`: `fromCache`, then `attach(item)` on the result, once. */
    method Pop(payload: Option<E>) returns (out: T)
      requires Valid()
      modifies this, pool
      ensures Valid() && pool.buffer == old(pool.buffer)
      ensures var (next, taken) := PoolModel.FromCache(old(pool.Model()));
        pool.Model() == next &&
        out == (if taken.Some? then taken.value else pool.factory()) &&
        pool.FactoryCalls == old(pool.FactoryCalls) + (if taken.None? then 1 else 0)
      ensures Log == old(Log) + [Taken(out), Attached(out, payload)]
    {
      out := pool.FromCache();
      Log := Log + [Taken(out)];
      Log := Log + [Attached(out, payload)];
      assert Log == old(Log) + [Taken(out), Attached(out, payload)];
      PairedAppend(old(Log), Taken(out), Attached(out, payload));
    }

    /** `push(item)`: `detach()` on the item, once, then `toCache(item)`. */
    method Push(item: T)
      requires Valid()
      modifies this, pool, pool.buffer
      ensures Valid() && (pool.buffer == old(pool.buffer) || fresh(pool.buffer))
      ensures pool.Model() == PoolModel.ToCache(old(pool.Model()), item)
      ensures Log == old(Log) + [Detached(item), Stored(item)]
    {
      Log := Log + [Detached(item)];
      pool.ToCache(item);
      Log := Log + [Stored(item)];
      assert Log == old(Log) + [Detached(item), Stored(item)];
      PairedAppend(old(Log), Detached(item), Stored(item));
    }
  }

  /** A capacity-2 pool stepped through one cold acquire, a recycle, and two
      more releases, the second of which grows the buffer: the next acquire
      returns the later of the two releases, `c`, ahead of `b`. */
  method GrowthScenario<T>(factory: () -> T, b: T, c: T)
    returns (first: T, again: T, capacity: nat, next: T, ghost factoryCalls: nat)
    requires b != c
    ensures first == factory() && again == first && factoryCalls == 1
    ensures capacity == 4 && next == c && next != b
  {
    var pool := new Pool(2, factory);
    first := pool.FromCache();
    assert pool.Model() == State([None, None], 0, 0);
    pool.ToCache(first);
    assert pool.Model() == State([Some(first), None], 1, 0);
    again := pool.FromCache();
    assert pool.Model() == State([Some(first), None], 1, 1);
    pool.ToCache(b);
    assert pool.Model() == State([Some(first), Some(b)], 0, 1);
    pool.ToCache(c);
    assert pool.Model().buffer[0] == Some(c) && pool.Model().removalIndex == 0 &&
      pool.Model().insertIndex == 2;
    capacity := pool.Capacity();
    next := pool.FromCache();
    factoryCalls := pool.FactoryCalls;
  }
}
